=== FILE: README.md ===
# Library loan ledger

A Dafny model of the loan ledger of a small library service: books (each with an
`available` flag), patrons, and borrowing records that link a book to a patron and are
either open or returned. The model covers

- borrowing and returning (`BorrowingRecordServiceImp`) as pure transitions
  `Library × request → Response` with the source's ordered precondition checks;
- book and patron management (`BookServiceImp`, `PatronServiceImpl`): lookup, creation
  with a unique ISBN / email, update through the DTO fields, and deletion guarded by
  `isCurrentlyBorrowed()` and cascading to the entity's records;
- the field constraints of `Book`, `Patron` and `BorrowingRecord` as predicates, with
  the ISBN and phone `@Pattern`s proved equal to the language of their regular
  expressions.

Files and modules:

| file | module | contents |
|---|---|---|
| results.dfy | `Results` | `Option`, error kinds (`NotFound(book/patron/loan)`, `Duplicate`, `IllegalState`), `Result`, `Response` |
| regex.dfy | `Regex` | a fragment of regular expressions and their language |
| validation.dfy | `Validation` | `String.length()` in UTF-16 units, `trim`/`@NotBlank`, ISBN and phone shapes |
| entities.dfy | `Entities` | `Book`, `Patron`, `BorrowingRecord`, `Library`; entity constraints; record queries |
| borrowing.dfy | `BorrowingService` | `Borrow`, `Return` |
| books.dfy | `BookService` | `GetBook`, `CreateBook`, `UpdateBook`, `DeleteBook` |
| patrons.dfy | `PatronService` | `GetPatron`, `CreatePatron`, `UpdatePatron`, `DeletePatron` |
| ledger.dfy | `Ledger` | the flag/record consistency condition and what each operation does to it |
| safety.dfy | `Safety` | the weaker condition every operation keeps (one open loan per book), and the libraries reachable from an empty one |

A record holds its book and patron as ids, so the `@NotNull` constraints on both hold
by construction. Every failure in the services is raised before anything is saved, so a failed
operation returns only its error (`Response.Failed`) and the caller keeps its state:
"no record is saved" and "nothing is deleted" hold by construction.

The consistency condition (`Ledger.Consistent`: every record refers to a stored book
and patron, at most one open record per book, a stored book is unavailable exactly
when it has an open record, ids below the identity counters) is preserved by every
successful operation except `CreateBook` of a book whose flag is already cleared,
which the source accepts. It is therefore stated as a conditional property
(`Ledger.CreateBookConsistentIff`, `Ledger.UnavailableNewBook`), not as an invariant of
all states. A weaker condition (`Safety.Safe`) drops only the half "unavailable implies an
open record" and keeps "an available book has no open record". Every request keeps it,
successful or not, including creating an unavailable book. So in every library reached
from an empty one by any sequence of requests, a book has at most one open loan and a
pair at most one open record (`Safety.ReachableHasOneLoanPerBook`). Create requests are
taken to carry no id; see "## Left out".

An unavailable book is refused with `Duplicate` (`DuplicateEntryException`) and an open
record for the same pair with `IllegalState` (`IllegalStateException`). A return sets only
`returned` and never a return date. Deleting a book or patron cascades to its records.

## Model

| member | source | states |
|---|---|---|
| Validation.Utf16Length | src/main/java/com/library/librarySystem/model/Book.java:24 | the length that `@Size` bounds is at least the character count and at most twice it, and equals it when no character lies above U+FFFF |
| Validation.NotBlankIff | src/main/java/com/library/librarySystem/model/Book.java:23 | a string passes `@NotBlank` (something left after `trim`) exactly when one of its characters is above U+0020 |
| Validation.IsbnShape | src/main/java/com/library/librarySystem/model/Book.java:39 | an accepted ISBN has length 10 or 13, and its only possible non-digit is a final `X` |
| Validation.IsbnShapeMatchesPattern | src/main/java/com/library/librarySystem/model/Book.java:38-39 | the ISBN shape accepts exactly the strings of `^(97(8\|9))?\d{9}(\d\|X)$` |
| Validation.PhoneShape | src/main/java/com/library/librarySystem/model/Patron.java:36 | an accepted phone has 7 to 16 characters, and 16 only with a leading `+` |
| Validation.PhoneShapeMatchesPattern | src/main/java/com/library/librarySystem/model/Patron.java:36 | the phone shape accepts exactly the strings of `^\+?[0-9. ()-]{7,15}$` |
| Validation.BlankPhoneHasShape | src/main/java/com/library/librarySystem/model/Patron.java:35-36 | seven spaces match the phone pattern but fail `@NotBlank`, so both annotations are needed |
| Entities.ValidBookBounds | src/main/java/com/library/librarySystem/model/Book.java:23-61 | a valid book has title and author of 1 to 100 characters, genre of 1 to 50, year in [1500, 2100], at least one page, and an ISBN of length 10 or 13 |
| Entities.ValidPatronBounds | src/main/java/com/library/librarySystem/model/Patron.java:25-41 | a valid patron has a name of 1 to 50 characters, a phone of 7 to 16, and an address of at most 255 |
| Entities.BookValid | src/main/java/com/library/librarySystem/model/Book.java:23-61 | title and author `@NotBlank` (after `trim`) and at most 100 UTF-16 units, year in [1500, 2100], ISBN `@NotBlank` and in the language of the declared pattern, genre `@NotBlank` and at most 50 units, description absent or at most 500 units, page count at least 1; price not modelled |
| Entities.PatronValid | src/main/java/com/library/librarySystem/model/Patron.java:25-41 | name `@NotBlank` and 2 to 50 UTF-16 units, email `@NotBlank`, phone `@NotBlank` and in the language of the declared pattern, address absent or at most 255 units; email format not modelled |
| Entities.RecordValid | src/main/java/com/library/librarySystem/model/BorrowingRecord.java:33-39 | a valid record was borrowed on or before the given day and has any return date on or after it, so its borrow date does not follow its return date |
| Entities.NewRecord | src/main/java/com/library/librarySystem/model/BorrowingRecord.java:44-49 | the constructor keeps book, patron and returned, dates the record on the given day without a return date, and the record is valid on that day and every later one |
| Entities.FindOpen | src/main/java/com/library/librarySystem/service/BorrowingRecordServiceImp.java:34 | the open-record query finds nothing exactly when no record of the pair is open, and otherwise returns an open record of the pair |
| Entities.AnyUnreturned | src/main/java/com/library/librarySystem/model/Book.java:79 | `anyMatch(!isReturned())` holds exactly when some record of the list is not returned |
| Entities.CurrentlyBorrowed | src/main/java/com/library/librarySystem/model/Book.java:75-80 | `isCurrentlyBorrowed()` is false for an absent list, otherwise true exactly when some record is not returned |
| Entities.BookCurrentlyBorrowedIff | src/main/java/com/library/librarySystem/model/Book.java:63-80 | a book is currently borrowed exactly when some record of the book is open; the `available` flag plays no part |
| Entities.PatronCurrentlyBorrowedIff | src/main/java/com/library/librarySystem/model/Patron.java:43-52 | a patron is currently borrowing exactly when some record of the patron is open |
| BorrowingService.Borrow | src/main/java/com/library/librarySystem/service/BorrowingRecordServiceImp.java:25-46 | missing book, then missing patron, then unavailable book (`Duplicate`), then an open record for the pair (`IllegalState`); success exactly when none applies, appending one open record for the pair and clearing only that book's flag |
| BorrowingService.Return | src/main/java/com/library/librarySystem/service/BorrowingRecordServiceImp.java:48-63 | success exactly when the pair has an open record; that record is closed, the book's flag set back only if the book exists, and a missing book still yields success |
| BorrowingService.BorrowCreatesOpenRecord | src/main/java/com/library/librarySystem/model/BorrowingRecord.java:44-49 | the new record holds the given book and patron, is open, is dated today, has no return date, and satisfies the record's date constraints |
| BorrowingService.ReturnOnlyFlipsReturned | src/main/java/com/library/librarySystem/service/BorrowingRecordServiceImp.java:53-54 | a return changes no record field other than `returned`, and only from false to true; the return date is never set |
| BookService.GetBook | src/main/java/com/library/librarySystem/service/BookServiceImp.java:34-37 | a stored book yields its DTO fields; an unknown id yields NotFound |
| BookService.CreateBook | src/main/java/com/library/librarySystem/service/BookServiceImp.java:41-46 | fails with `Duplicate` exactly when the ISBN is taken; otherwise stores the book under a fresh id and changes nothing else |
| BookService.UpdateBook | src/main/java/com/library/librarySystem/service/BookServiceImp.java:50-59 | an unknown id yields NotFound; otherwise only the DTO fields of that book change, never its id, ISBN, description or flag |
| BookService.DeleteBook | src/main/java/com/library/librarySystem/service/BookServiceImp.java:63-71 | an unknown id yields NotFound, an open record of the book yields `IllegalState`; otherwise the book is removed and the records keep every record of other books with its multiplicity and none of the book's |
| BookService.CreateThenGet | src/main/java/com/library/librarySystem/service/BookServiceImp.java:34-46 | a created book is found by its new id with the fields it was created with |
| BookService.BookOperationsKeepIsbnsUnique | src/main/java/com/library/librarySystem/service/BookServiceImp.java:41-43 | creation, update and deletion keep the ISBNs of stored books pairwise distinct |
| PatronService.GetPatron | src/main/java/com/library/librarySystem/service/PatronServiceImpl.java:36-40 | a stored patron is returned; an unknown id yields NotFound |
| PatronService.CreatePatron | src/main/java/com/library/librarySystem/service/PatronServiceImpl.java:44-49 | fails with `Duplicate` exactly when the email is taken; otherwise stores the patron under a fresh id and changes nothing else |
| PatronService.UpdatePatron | src/main/java/com/library/librarySystem/service/PatronServiceImpl.java:53-62 | an unknown id yields NotFound; otherwise the patron's fields become the payload and nothing else changes |
| PatronService.DeletePatron | src/main/java/com/library/librarySystem/service/PatronServiceImpl.java:66-72 | an unknown id yields NotFound, an open record of the patron yields `IllegalState`; otherwise the patron is removed and the records keep every record of other patrons with its multiplicity and none of the patron's |
| PatronService.CreateUpdateThenGet | src/main/java/com/library/librarySystem/service/PatronServiceImpl.java:36-62 | a created or updated patron reads back as written |
| PatronService.CreatePatronKeepsEmailsUnique | src/main/java/com/library/librarySystem/service/PatronServiceImpl.java:44-46 | creation keeps the emails of stored patrons pairwise distinct |
| PatronService.UpdatePatronMayDuplicateEmail | src/main/java/com/library/librarySystem/service/PatronServiceImpl.java:53-59 | the update path does not check the email, so it can give two patrons the same email |
| Ledger.GuardAgreesWithFlag | src/main/java/com/library/librarySystem/model/Book.java:75-80 | in a consistent library the deletion guard of a book agrees with its cleared flag |
| Ledger.BorrowOpenCounts | src/main/java/com/library/librarySystem/service/BorrowingRecordServiceImp.java:39-43 | a successful borrow gives its book exactly one more open record, leaves every other book's open count unchanged, and keeps every record referring to stored rows |
| Ledger.ReturnOpenCounts | src/main/java/com/library/librarySystem/service/BorrowingRecordServiceImp.java:50-54 | a successful return takes exactly one open record from its book, leaves every other book's open count unchanged, and keeps every record referring to stored rows |
| Ledger.DeleteBookOpenCounts | src/main/java/com/library/librarySystem/service/BookServiceImp.java:63-71 | after deleting a book none of its records is open and every other book's open count is unchanged |
| Ledger.DeletePatronOpenCounts | src/main/java/com/library/librarySystem/service/PatronServiceImpl.java:66-72 | deleting a patron, who has no open record, leaves every book's open count unchanged |
| Ledger.BorrowKeepsConsistent | src/main/java/com/library/librarySystem/service/BorrowingRecordServiceImp.java:39-43 | a successful borrow keeps "unavailable iff an open record exists" and the other consistency conditions |
| Ledger.ReturnKeepsConsistent | src/main/java/com/library/librarySystem/service/BorrowingRecordServiceImp.java:53-60 | a successful return keeps "unavailable iff an open record exists" and the other consistency conditions |
| Ledger.CreateBookConsistentIff | src/main/java/com/library/librarySystem/service/BookServiceImp.java:41-46 | creating a book keeps the library consistent exactly when the new book is marked available |
| Ledger.UpdateBookKeepsConsistent | src/main/java/com/library/librarySystem/service/BookServiceImp.java:50-59 | updating a book keeps the library consistent |
| Ledger.DeleteBookKeepsConsistent | src/main/java/com/library/librarySystem/service/BookServiceImp.java:63-71 | deleting a book, with its records, keeps the library consistent |
| Ledger.CreatePatronKeepsConsistent | src/main/java/com/library/librarySystem/service/PatronServiceImpl.java:44-49 | creating a patron keeps the library consistent |
| Ledger.UpdatePatronKeepsConsistent | src/main/java/com/library/librarySystem/service/PatronServiceImpl.java:53-62 | updating a patron keeps the library consistent |
| Ledger.DeletePatronKeepsConsistent | src/main/java/com/library/librarySystem/service/PatronServiceImpl.java:66-72 | deleting a patron, with its records, keeps the library consistent |
| Ledger.BorrowNeverIllegalState | src/main/java/com/library/librarySystem/service/BorrowingRecordServiceImp.java:30-37 | when no available book has an open record (so in every consistent or safe library) the duplicate-pair check of borrow never fires |
| Ledger.ReturnFindsBook | src/main/java/com/library/librarySystem/service/BorrowingRecordServiceImp.java:56-60 | when every record refers to a stored book and patron, a successful return always finds its book and leaves it available |
| Ledger.ReturnTwiceFails | src/main/java/com/library/librarySystem/service/BorrowingRecordServiceImp.java:50-51 | when the pair has at most one open record, a second return of the same pair after a successful one yields NotFound(loan) |
| Ledger.TwoOpenRecordsReturnTwice | src/main/java/com/library/librarySystem/service/BorrowingRecordServiceImp.java:50-51 | in the model, which takes the first of several open records where the source's query throws, two open records of a pair can be returned one after the other |
| Ledger.OneOpenRecordPerPair | src/main/java/com/library/librarySystem/service/BorrowingRecordServiceImp.java:34-43 | a library with at most one open record per book has at most one open record for every book and patron pair |
| Ledger.BorrowReturnRoundTrip | src/main/java/com/library/librarySystem/service/BorrowingRecordServiceImp.java:25-63 | for an available book with no open record, whatever holds of other books, borrow then return restores the books and patrons exactly, adds one closed record, and lets any patron borrow the book next |
| Ledger.DeletionGuardAroundLoan | src/main/java/com/library/librarySystem/service/BookServiceImp.java:63-71 | for a book that had no open record, while its loan is open neither the book nor its patron can be deleted; after the return the book can |
| Ledger.LoanScenario | src/main/java/com/library/librarySystem/service/BorrowingRecordServiceImp.java:30-51 | lend a book to one patron, refuse it to a second with `Duplicate`, return it, and fail the repeated return |
| Ledger.UnavailableNewBook | src/main/java/com/library/librarySystem/service/BookServiceImp.java:41-46 | a book created unavailable breaks consistency: borrowing it fails with `Duplicate` although it has no loan, and it can be deleted |
| Safety.CreateBookKeepsSafe | src/main/java/com/library/librarySystem/service/BookServiceImp.java:41-46 | creating a book keeps the library safe whatever its flag: the new id has no record, so an available new book has no open one |
| Safety.UpdateBookKeepsSafe | src/main/java/com/library/librarySystem/service/BookServiceImp.java:50-59 | updating a book keeps the library safe |
| Safety.DeleteBookKeepsSafe | src/main/java/com/library/librarySystem/service/BookServiceImp.java:63-71 | deleting a book with no open record, together with its records, keeps the library safe |
| Safety.CreatePatronKeepsSafe | src/main/java/com/library/librarySystem/service/PatronServiceImpl.java:44-49 | creating a patron keeps the library safe |
| Safety.UpdatePatronKeepsSafe | src/main/java/com/library/librarySystem/service/PatronServiceImpl.java:53-62 | updating a patron keeps the library safe |
| Safety.DeletePatronKeepsSafe | src/main/java/com/library/librarySystem/service/PatronServiceImpl.java:66-72 | deleting a patron with no open record, together with its records, keeps the library safe |
| Safety.BorrowKeepsSafe | src/main/java/com/library/librarySystem/service/BorrowingRecordServiceImp.java:30-43 | a successful borrow keeps the library safe: the availability check means the book had no open record, so it ends with exactly one |
| Safety.ReturnKeepsSafe | src/main/java/com/library/librarySystem/service/BorrowingRecordServiceImp.java:50-60 | a successful return keeps the library safe: the book it marks available loses its only open record |
| Safety.StepKeepsSafe | src/main/java/com/library/librarySystem/service/BorrowingRecordServiceImp.java:25-63 | every create, update, delete, borrow or return request keeps the library safe, and a failed one leaves it unchanged |
| Safety.RunKeepsSafe | src/main/java/com/library/librarySystem/service/BorrowingRecordServiceImp.java:25-63 | any sequence of requests keeps a safe library safe |
| Safety.ReachableHasOneLoanPerBook | src/main/java/com/library/librarySystem/service/BorrowingRecordServiceImp.java:30-43 | in every library reached from an empty one, each book has at most one open loan, each pair at most one open record, and every record refers to a stored book and patron |
| Safety.SafeButNotConsistent | src/main/java/com/library/librarySystem/service/BookServiceImp.java:41-46 | creating one unavailable book in an empty library gives a library that is safe but not consistent |

## Left out

- Controllers, authentication, the logging aspect, caching annotations and the
  `getAll` listings: routing, security and cross-cutting effects with no ledger logic.
- Transactions and concurrent interleavings: each operation is one atomic step; the
  source's atomicity comes from the framework.
- When the constraints are checked: the services never call them; the controller's
  `@Valid` and the persistence layer's validation hooks do. The predicates stand
  alone, and the operations store what they are given.
- Database unique-column constraints on ISBN and email: only the service-level checks
  are modelled (hence `PatronService.UpdatePatronMayDuplicateEmail`).
- `@Email` format, the `price` field with `@DecimalMin`, audit timestamps: foreign
  library semantics, decimal numerics and clock reads. The borrow date is the `today`
  parameter of `Borrow`.
- Repository failures (an unreachable database): no error kind for them.
- Entities.FindOpen: when several open records of one pair exist, the repository query
  would throw instead of returning one; the model takes the first. Consistent libraries
  have at most one open record per book, so the case does not arise there, nor in any
  library reached from an empty one (`Safety.ReachableHasOneLoanPerBook`).
- Ledger.TwoOpenRecordsReturnTwice: shows the model's choice of the first open record, not
  the source, whose first return would already fail when two records of the pair are open.
- BookService.CreateBook: returns the new id rather than the saved book's DTO, which is
  that book's descriptive fields.
- BookService.CreateBook: the payload is taken to carry no id, so creation always inserts
  under a fresh id. The entity's id is settable and the controller binds the whole body, so
  a payload naming a stored book's id would make the repository's `save` (BookServiceImp.java:45)
  merge it into that row, and what the merge does to the row's records depends on the
  persistence provider, which is not part of this model.
- PatronService.CreatePatron: returns the new id rather than the saved patron's DTO.
- PatronService.CreatePatron: the payload is taken to carry no id, for the same reason as
  for books (`save` at PatronServiceImpl.java:48 would merge into a stored patron).
- Ledger.CreateBookConsistentIff: covers creation from a payload without an id only, as
  `BookService.CreateBook` does.
- Safety.CreateBookKeepsSafe: covers creation from a payload without an id only, as
  `BookService.CreateBook` does.
- Safety.ReachableHasOneLoanPerBook: the libraries it covers are those reached by
  requests whose create payloads carry no id; a payload merged into a stored row is
  not modelled.
- Borrow and return success messages: replaced by the structured `Loan(book, patron)`.
- Identity generation is a counter per table for books and patrons; records carry no id
  in the model and nothing refers to one.
- Java `int` overflow of year and page count: the fields are unbounded integers; the
  range constraints apply as written.

=== FILE: books.dfy ===
/** Book management: lookup, creation with a unique ISBN, update of the descriptive fields,
    and deletion guarded by the book's open loans. */
module BookService {
  import opened Results
  import opened Entities

  /** Some stored book already has ISBN `isbn`. */
  predicate IsbnTaken(s: Library, isbn: string)
  {
    exists id :: id in s.books && s.books[id].isbn == isbn
  }

  /** Every stored book id is below the identity counter. */
  predicate BookIdsBelowCounter(s: Library)
  {
    forall id :: id in s.books ==> id < s.nextBookId
  }

  /** No two stored books share an ISBN. */
  predicate IsbnsUnique(s: Library)
  {
    forall i, j :: i in s.books && j in s.books && s.books[i].isbn == s.books[j].isbn ==> i == j
  }

  /** Look up a book; the caller gets the descriptive fields (the DTO). */
  function GetBook(s: Library, id: BookId): (r: Result<BookInfo>)
    ensures r.Ok? <==> id in s.books
    ensures r.Ok? ==> r.value == s.books[id].info
    ensures r.Err? ==> r.error == NotFound(MissingBook)
  {
    if id in s.books then Ok(s.books[id].info) else Err(NotFound(MissingBook))
  }

  /** Store a new book under the next identity, unless its ISBN is already taken. The book
      is stored as given, `available` flag included. The value is the new id. */
  function CreateBook(s: Library, book: Book): (r: Response<Library, BookId>)
    ensures r.Failed? <==> IsbnTaken(s, book.isbn)
    ensures r.Failed? ==> r.error == Duplicate
    ensures r.Done? ==> r.state.books == s.books[r.value := book]
    ensures r.Done? && BookIdsBelowCounter(s) ==> r.value !in s.books && BookIdsBelowCounter(r.state)
    ensures r.Done? ==> r.state.patrons == s.patrons && r.state.records == s.records
    ensures r.Done? ==> r.state.nextPatronId == s.nextPatronId
  {
    if IsbnTaken(s, book.isbn) then Failed(Duplicate)
    else
      var id := s.nextBookId;
      Done(s.(books := s.books[id := book], nextBookId := id + 1), id)
  }

  /** Overwrite the descriptive fields of a stored book. Id, ISBN, description and the
      `available` flag are not in the update payload and so never change. */
  function UpdateBook(s: Library, id: BookId, info: BookInfo): (r: Response<Library, BookInfo>)
    ensures r.Failed? <==> id !in s.books
    ensures r.Failed? ==> r.error == NotFound(MissingBook)
    ensures r.Done? ==> r.value == info && r.state.books.Keys == s.books.Keys
    ensures r.Done? ==> r.state.books[id].info == info
    ensures r.Done? ==> (&& r.state.books[id].isbn == s.books[id].isbn
                         && r.state.books[id].available == s.books[id].available
                         && r.state.books[id].description == s.books[id].description)
    ensures r.Done? ==> forall c :: c in s.books && c != id ==> r.state.books[c] == s.books[c]
    ensures r.Done? ==> r.state.patrons == s.patrons && r.state.records == s.records
    ensures r.Done? ==> r.state.nextBookId == s.nextBookId && r.state.nextPatronId == s.nextPatronId
  {
    if id !in s.books then Failed(NotFound(MissingBook))
    else Done(s.(books := s.books[id := s.books[id].(info := info)]), info)
  }

  /** Delete a stored book unless it is currently borrowed, which is read from its records,
      not from its flag. The deletion cascades to every record of the book. */
  function DeleteBook(s: Library, id: BookId): (r: Response<Library, ()>)
    ensures r.Failed? <==> id !in s.books || BookOnLoan(s.records, id)
    ensures id !in s.books ==> r == Failed(NotFound(MissingBook))
    ensures id in s.books && BookOnLoan(s.records, id) ==> r == Failed(IllegalState)
    ensures r.Done? ==> r.state.books == s.books - {id}
    ensures r.Done? ==> forall x :: x in r.state.records <==> x in s.records && x.book != id
    ensures r.Done? ==> forall x {:trigger multiset(r.state.records)[x]} :: multiset(r.state.records)[x] == if x.book == id then 0 else multiset(s.records)[x]
    ensures r.Done? ==> r.state.patrons == s.patrons
    ensures r.Done? ==> r.state.nextBookId == s.nextBookId && r.state.nextPatronId == s.nextPatronId
  {
    if id !in s.books then Failed(NotFound(MissingBook))
    else if
      BookCurrentlyBorrowedIff(s.records, id);
      CurrentlyBorrowed(Some(BookRecords(s.records, id)))
    then Failed(IllegalState)
    else
      Done(s.(books := s.books - {id}, records := Filter(s.records, (x: BorrowingRecord) => x.book != id)), ())
  }

  /** A created book can be read back. */
  lemma CreateThenGet(s: Library, book: Book)
    requires CreateBook(s, book).Done?
    ensures GetBook(CreateBook(s, book).state, CreateBook(s, book).value) == Ok(book.info)
  {
  }

  /** A stored book's ISBN stays unique through creation, update and deletion. */
  lemma BookOperationsKeepIsbnsUnique(s: Library, book: Book, id: BookId, info: BookInfo)
    requires IsbnsUnique(s) && BookIdsBelowCounter(s)
    ensures CreateBook(s, book).Done? ==> IsbnsUnique(CreateBook(s, book).state)
    ensures UpdateBook(s, id, info).Done? ==> IsbnsUnique(UpdateBook(s, id, info).state)
    ensures DeleteBook(s, id).Done? ==> IsbnsUnique(DeleteBook(s, id).state)
  {
    var c := CreateBook(s, book);
    if c.Done? {
      assert forall j :: j in s.books ==> s.books[j].isbn != book.isbn;
    }
  }
}

=== FILE: borrowing.dfy ===
/** Borrowing and returning a book: the loan ledger's two transitions. */
module BorrowingService {
  import opened Results
  import opened Entities

  /** The confirmation of a successful borrow or return. */
  datatype Loan = Loan(book: BookId, patron: PatronId)

  /** Borrow book `b` for patron `p` on day `today`. The checks run in order and the first
      failure wins: the book exists, the patron exists, the book's flag says available,
      and the pair has no open record yet. On success one open record is appended and the
      book's flag is cleared. */
  function Borrow(s: Library, b: BookId, p: PatronId, today: Day): (r: Response<Library, Loan>)
    ensures r.Done? <==> b in s.books && p in s.patrons && s.books[b].available && !HasOpenLoan(s.records, b, p)
    ensures b !in s.books ==> r == Failed(NotFound(MissingBook))
    ensures b in s.books && p !in s.patrons ==> r == Failed(NotFound(MissingPatron))
    ensures b in s.books && p in s.patrons && !s.books[b].available ==> r == Failed(Duplicate)
    ensures b in s.books && p in s.patrons && s.books[b].available && HasOpenLoan(s.records, b, p)
            ==> r == Failed(IllegalState)
    ensures r.Done? ==> r.value == Loan(b, p)
    ensures r.Done? ==> r.state.records == s.records + [BorrowingRecord(b, p, today, None, false)]
    ensures r.Done? ==> r.state.books.Keys == s.books.Keys && !r.state.books[b].available
    ensures r.Done? ==> r.state.books[b] == s.books[b].(available := false)
    ensures r.Done? ==> forall c :: c in s.books && c != b ==> r.state.books[c] == s.books[c]
    ensures r.Done? ==> r.state.patrons == s.patrons
    ensures r.Done? ==> r.state.nextBookId == s.nextBookId && r.state.nextPatronId == s.nextPatronId
  {
    if b !in s.books then Failed(NotFound(MissingBook))
    else if p !in s.patrons then Failed(NotFound(MissingPatron))
    else if !s.books[b].available then Failed(Duplicate)
    else if FindOpen(s.records, b, p).Some? then Failed(IllegalState)
    else
      var record := NewRecord(b, p, false, today);
      var book := s.books[b].(available := false);
      Done(s.(records := s.records + [record], books := s.books[b := book]), Loan(b, p))
  }

  /** Return book `b` from patron `p`: close the first open record of the pair; if the book
      still exists set its flag back to available, otherwise leave the books alone and
      still succeed. Closing only sets `returned`: the return date stays as it was. */
  function Return(s: Library, b: BookId, p: PatronId): (r: Response<Library, Loan>)
    ensures r.Done? <==> HasOpenLoan(s.records, b, p)
    ensures r.Failed? ==> r.error == NotFound(MissingLoan)
    ensures r.Done? ==> r.value == Loan(b, p)
    ensures r.Done? ==> |r.state.records| == |s.records|
    ensures r.Done? ==> exists i :: 0 <= i < |s.records| && IsOpenFor(s.records[i], b, p)
                          && r.state.records == s.records[i := s.records[i].(returned := true)]
    ensures r.Done? && b in s.books ==> r.state.books == s.books[b := s.books[b].(available := true)]
    ensures r.Done? && b !in s.books ==> r.state.books == s.books
    ensures r.Done? ==> r.state.patrons == s.patrons
    ensures r.Done? ==> r.state.nextBookId == s.nextBookId && r.state.nextPatronId == s.nextPatronId
  {
    match FindOpen(s.records, b, p)
    case None => Failed(NotFound(MissingLoan))
    case Some(i) =>
      var closed := s.records[i].(returned := true);
      var recs := s.records[i := closed];
      if b in s.books then
        Done(s.(records := recs, books := s.books[b := s.books[b].(available := true)]), Loan(b, p))
      else
        Done(s.(records := recs), Loan(b, p))
  }

  /** The record a successful borrow creates is the constructor's record for the pair:
      open, dated today, without a return date, and valid on that day. */
  lemma BorrowCreatesOpenRecord(s: Library, b: BookId, p: PatronId, today: Day)
    requires Borrow(s, b, p, today).Done?
    ensures var recs := Borrow(s, b, p, today).state.records;
            |recs| == |s.records| + 1
            && recs[|s.records|] == NewRecord(b, p, false, today)
            && IsOpenFor(recs[|s.records|], b, p)
            && recs[|s.records|].returnDate.None?
            && RecordValid(recs[|s.records|], today)
  {
  }

  /** Closing a record keeps every field except `returned`; in particular a record that
      had no return date still has none. */
  lemma ReturnOnlyFlipsReturned(s: Library, b: BookId, p: PatronId)
    requires Return(s, b, p).Done?
    ensures var recs := Return(s, b, p).state.records;
            forall i :: 0 <= i < |recs| ==>
              && recs[i].book == s.records[i].book
              && recs[i].patron == s.records[i].patron
              && recs[i].borrowDate == s.records[i].borrowDate
              && recs[i].returnDate == s.records[i].returnDate
              && (recs[i].returned != s.records[i].returned ==> recs[i].returned)
  {
  }
}

=== FILE: entities.dfy ===
/** The entities of the library (Book, Patron, BorrowingRecord), their field constraints,
    and the queries over the borrowing records that the services rely on. */
module Entities {
  import opened Results
  import opened Validation
  import opened Regex

  type BookId = int
  type PatronId = int

  /** A calendar day; the clock is a parameter of the operations that read it. */
  type Day = int

  /** The descriptive fields of a book: exactly what the book DTO carries, so exactly what
      an update may overwrite. */
  datatype BookInfo = BookInfo(
    title: string,
    author: string,
    publicationYear: int,
    genre: string,
    pageCount: int)

  datatype Book = Book(
    info: BookInfo,
    isbn: string,
    description: Option<string>,
    available: bool)

  /** A patron; every field is also in the patron DTO. */
  datatype Patron = Patron(
    name: string,
    email: string,
    phone: string,
    address: Option<string>)

  /** A loan. Book and patron are ids, not nullable references, so a record always has
      both (the `@NotNull` constraints hold by construction). */
  datatype BorrowingRecord = BorrowingRecord(
    book: BookId,
    patron: PatronId,
    borrowDate: Day,
    returnDate: Option<Day>,
    returned: bool)

  /** The persistent state: the three tables, plus the identity counters the database
      uses to number new books and patrons. */
  datatype Library = Library(
    books: map<BookId, Book>,
    patrons: map<PatronId, Patron>,
    records: seq<BorrowingRecord>,
    nextBookId: BookId,
    nextPatronId: PatronId)

  // ---------------------------------------------------------------- constraints

  /** The constraints declared on the fields of a book (price is not modelled). A valid
      book's ISBN is in the language of the declared regular expression. */
  function BookValid(b: Book): (r: bool)
    ensures r ==> Matches(IsbnPattern, b.isbn)
  {
    IsbnShapeMatchesPattern(b.isbn);
    && NotBlank(b.info.title) && SizeAtMost(b.info.title, 100)
    && NotBlank(b.info.author) && SizeAtMost(b.info.author, 100)
    && 1500 <= b.info.publicationYear <= 2100
    && NotBlank(b.isbn) && IsbnShape(b.isbn)
    && NotBlank(b.info.genre) && SizeAtMost(b.info.genre, 50)
    && (b.description.Some? ==> SizeAtMost(b.description.value, 500))
    && b.info.pageCount >= 1
  }

  /** What the constraints of a valid book guarantee about its fields, counted in
      characters. */
  lemma ValidBookBounds(b: Book)
    ensures BookValid(b) ==>
              && 1 <= |b.info.title| <= 100 && 1 <= |b.info.author| <= 100 && 1 <= |b.info.genre| <= 50
              && 1500 <= b.info.publicationYear <= 2100 && b.info.pageCount >= 1
              && (|b.isbn| == 10 || |b.isbn| == 13)
  {
  }

  /** The constraints declared on the fields of a patron (the email format is not
      modelled). A valid patron's phone is in the language of the declared regular
      expression. */
  function PatronValid(p: Patron): (r: bool)
    ensures r ==> Matches(PhonePattern, p.phone)
  {
    PhoneShapeMatchesPattern(p.phone);
    && NotBlank(p.name) && SizeWithin(p.name, 2, 50)
    && NotBlank(p.email)
    && NotBlank(p.phone) && PhoneShape(p.phone)
    && (p.address.Some? ==> SizeAtMost(p.address.value, 255))
  }

  lemma ValidPatronBounds(p: Patron)
    ensures PatronValid(p) ==>
              && 1 <= |p.name| <= 50 && 7 <= |p.phone| <= 16
              && (p.address.Some? ==> |p.address.value| <= 255)
  {
  }

  /** The date constraints of a record on day `today`: borrowed in the past or today, and
      any return date today or later. */
  function RecordValid(r: BorrowingRecord, today: Day): (v: bool)
    ensures v && r.returnDate.Some? ==> r.borrowDate <= r.returnDate.value
  {
    r.borrowDate <= today && (r.returnDate.Some? ==> r.returnDate.value >= today)
  }

  /** The three-argument constructor: the borrow date is the current day and no return
      date is set. */
  function NewRecord(book: BookId, patron: PatronId, returned: bool, today: Day): (r: BorrowingRecord)
    ensures r.book == book && r.patron == patron && r.returned == returned
    ensures forall later :: today <= later ==> RecordValid(r, later)
  {
    BorrowingRecord(book, patron, today, None, returned)
  }

  // ---------------------------------------------------------------- record queries

  predicate IsOpenFor(r: BorrowingRecord, b: BookId, p: PatronId)
  {
    r.book == b && r.patron == p && !r.returned
  }

  /** Some record links book `b` to patron `p` and is not returned. */
  predicate HasOpenLoan(recs: seq<BorrowingRecord>, b: BookId, p: PatronId)
  {
    exists i :: 0 <= i < |recs| && IsOpenFor(recs[i], b, p)
  }

  /** The search for an open record of the pair, from position `from` on; the first match
      is taken. */
  function FindOpenFrom(recs: seq<BorrowingRecord>, b: BookId, p: PatronId, from: nat): (r: Option<nat>)
    requires from <= |recs|
    ensures r.Some? ==> from <= r.value < |recs| && IsOpenFor(recs[r.value], b, p)
    ensures r.Some? ==> forall j :: from <= j < r.value ==> !IsOpenFor(recs[j], b, p)
    ensures r.None? ==> forall j :: from <= j < |recs| ==> !IsOpenFor(recs[j], b, p)
    decreases |recs| - from
  {
    if from == |recs| then None
    else if IsOpenFor(recs[from], b, p) then Some(from)
    else FindOpenFrom(recs, b, p, from + 1)
  }

  /** The repository query for the open record of a (book, patron) pair. */
  function FindOpen(recs: seq<BorrowingRecord>, b: BookId, p: PatronId): (r: Option<nat>)
    ensures r.None? <==> !HasOpenLoan(recs, b, p)
    ensures r.Some? ==> r.value < |recs| && IsOpenFor(recs[r.value], b, p)
  {
    FindOpenFrom(recs, b, p, 0)
  }

  /** `anyMatch(record -> !record.isReturned())` over a list. */
  function AnyUnreturned(l: seq<BorrowingRecord>): (r: bool)
    ensures r <==> exists i :: 0 <= i < |l| && !l[i].returned
  {
    if l == [] then false
    else if !l[0].returned then true
    else
      assert forall i :: 1 <= i < |l| ==> l[i] == l[1..][i - 1];
      AnyUnreturned(l[1..])
  }

  /** `isCurrentlyBorrowed()` of a book or patron, given its (possibly absent) list of
      records: an absent list means not borrowed. */
  function CurrentlyBorrowed(list: Option<seq<BorrowingRecord>>): (r: bool)
    ensures list.None? ==> !r
    ensures list.Some? ==> (r <==> exists i :: 0 <= i < |list.value| && !list.value[i].returned)
  {
    match list
    case None => false
    case Some(l) => AnyUnreturned(l)
  }

  /** The records for which `keep` holds, in their original order. */
  function Filter(recs: seq<BorrowingRecord>, keep: BorrowingRecord -> bool): (r: seq<BorrowingRecord>)
    ensures |r| <= |recs|
    ensures forall x :: x in r <==> x in recs && keep(x)
    ensures forall x {:trigger multiset(r)[x]} :: multiset(r)[x] == if keep(x) then multiset(recs)[x] else 0
  {
    if recs == [] then []
    else
      var front := recs[..|recs| - 1];
      var rest := Filter(front, keep);
      var last := recs[|recs| - 1];
      assert recs == front + [last];
      assert multiset(recs) == multiset(front) + multiset{last};
      if keep(last) then
        assert multiset(rest + [last]) == multiset(rest) + multiset{last};
        rest + [last]
      else rest
  }

  /** The `borrowingRecords` association of a book. */
  function BookRecords(recs: seq<BorrowingRecord>, b: BookId): seq<BorrowingRecord>
  {
    Filter(recs, (r: BorrowingRecord) => r.book == b)
  }

  /** The `borrowingRecords` association of a patron. */
  function PatronRecords(recs: seq<BorrowingRecord>, p: PatronId): seq<BorrowingRecord>
  {
    Filter(recs, (r: BorrowingRecord) => r.patron == p)
  }

  /** Some record of book `b` is not returned. */
  predicate BookOnLoan(recs: seq<BorrowingRecord>, b: BookId)
  {
    exists i :: 0 <= i < |recs| && recs[i].book == b && !recs[i].returned
  }

  /** Some record of patron `p` is not returned. */
  predicate PatronOnLoan(recs: seq<BorrowingRecord>, p: PatronId)
  {
    exists i :: 0 <= i < |recs| && recs[i].patron == p && !recs[i].returned
  }

  /** An open loan of a pair puts its book on loan. */
  lemma OpenLoanPutsBookOnLoan(recs: seq<BorrowingRecord>, b: BookId, p: PatronId)
    ensures HasOpenLoan(recs, b, p) ==> BookOnLoan(recs, b)
  {
    if HasOpenLoan(recs, b, p) {
      var k :| 0 <= k < |recs| && IsOpenFor(recs[k], b, p);
    }
  }

  /** A loaded book is currently borrowed exactly when one of its records is open; the
      `available` flag plays no part. */
  lemma BookCurrentlyBorrowedIff(recs: seq<BorrowingRecord>, b: BookId)
    ensures CurrentlyBorrowed(Some(BookRecords(recs, b))) <==> BookOnLoan(recs, b)
  {
    var l := BookRecords(recs, b);
    if CurrentlyBorrowed(Some(l)) {
      var i :| 0 <= i < |l| && !l[i].returned;
      assert l[i] in l;
    }
    if BookOnLoan(recs, b) {
      var i :| 0 <= i < |recs| && recs[i].book == b && !recs[i].returned;
      assert recs[i] in recs;
      var j :| 0 <= j < |l| && l[j] == recs[i];
    }
  }

  /** A loaded patron is currently borrowing exactly when one of its records is open. */
  lemma PatronCurrentlyBorrowedIff(recs: seq<BorrowingRecord>, p: PatronId)
    ensures CurrentlyBorrowed(Some(PatronRecords(recs, p))) <==> PatronOnLoan(recs, p)
  {
    var l := PatronRecords(recs, p);
    if CurrentlyBorrowed(Some(l)) {
      var i :| 0 <= i < |l| && !l[i].returned;
      assert l[i] in l;
    }
    if PatronOnLoan(recs, p) {
      var i :| 0 <= i < |recs| && recs[i].patron == p && !recs[i].returned;
      assert recs[i] in recs;
      var j :| 0 <= j < |l| && l[j] == recs[i];
    }
  }

  // ---------------------------------------------------------------- counting open loans

  function Counts(r: BorrowingRecord, b: BookId): nat
  {
    if r.book == b && !r.returned then 1 else 0
  }

  /** How many open records book `b` has. */
  function OpenCount(recs: seq<BorrowingRecord>, b: BookId): nat
  {
    if recs == [] then 0
    else OpenCount(recs[..|recs| - 1], b) + Counts(recs[|recs| - 1], b)
  }

  lemma {:induction false} OpenCountZeroIff(recs: seq<BorrowingRecord>, b: BookId)
    ensures OpenCount(recs, b) == 0 <==> !BookOnLoan(recs, b)
    decreases |recs|
  {
    if recs != [] {
      var front := recs[..|recs| - 1];
      OpenCountZeroIff(front, b);
      if BookOnLoan(front, b) {
        var i :| 0 <= i < |front| && front[i].book == b && !front[i].returned;
        assert recs[i] == front[i];
      }
      assert forall i :: 0 <= i < |front| ==> front[i] == recs[i];
    }
  }

  lemma OpenCountAppend(recs: seq<BorrowingRecord>, x: BorrowingRecord, b: BookId)
    ensures OpenCount(recs + [x], b) == OpenCount(recs, b) + Counts(x, b)
  {
    assert (recs + [x])[..|recs|] == recs;
  }

  /** Replacing one record changes each book's count by that record's contribution only. */
  lemma {:induction false} OpenCountUpdate(recs: seq<BorrowingRecord>, i: nat, x: BorrowingRecord, b: BookId)
    requires i < |recs|
    ensures OpenCount(recs[i := x], b) + Counts(recs[i], b) == OpenCount(recs, b) + Counts(x, b)
    decreases |recs|
  {
    var n := |recs| - 1;
    if i == n {
      assert recs[i := x][..n] == recs[..n];
    } else {
      OpenCountUpdate(recs[..n], i, x, b);
      assert recs[i := x][..n] == recs[..n][i := x];
    }
  }

  /** A filter that keeps every open record of book `b` keeps its count. */
  lemma {:induction false} OpenCountFilter(recs: seq<BorrowingRecord>, keep: BorrowingRecord -> bool, b: BookId)
    requires forall x :: x in recs && x.book == b && !x.returned ==> keep(x)
    ensures OpenCount(Filter(recs, keep), b) == OpenCount(recs, b)
    decreases |recs|
  {
    if recs != [] {
      var front := recs[..|recs| - 1];
      var last := recs[|recs| - 1];
      assert recs == front + [last];
      OpenCountFilter(front, keep, b);
      if keep(last) {
        OpenCountAppend(Filter(front, keep), last, b);
      }
    }
  }
}

=== FILE: ledger.dfy ===
/** The loan ledger's consistency condition, and how each operation of the services
    treats it. The condition is not a global invariant of the source: a book can be
    created with its flag already cleared and no record behind it. */
module Ledger {
  import opened Results
  import opened Entities
  import opened BorrowingService
  import opened BookService
  import opened PatronService

  /** Every record refers to a stored book and a stored patron. */
  predicate RecordsReferToStored(s: Library)
  {
    forall x :: x in s.records ==> x.book in s.books && x.patron in s.patrons
  }

  /** No book has more than one open record. */
  ghost predicate OneOpenLoanPerBook(s: Library)
  {
    forall b :: OpenCount(s.records, b) <= 1
  }

  /** A stored book is unavailable exactly when an open record of it exists. */
  predicate FlagsMatchLedger(s: Library)
  {
    forall b :: b in s.books ==> (!s.books[b].available <==> BookOnLoan(s.records, b))
  }

  /** At most one record of the pair (`b`, `p`) is open. */
  predicate OneOpenRecordOfPair(recs: seq<BorrowingRecord>, b: BookId, p: PatronId)
  {
    forall i, j :: 0 <= i < |recs| && 0 <= j < |recs| && IsOpenFor(recs[i], b, p) && IsOpenFor(recs[j], b, p) ==> i == j
  }

  /** A book marked available has no open record. The converse is what a book created
      unavailable breaks. */
  predicate AvailableMeansFree(s: Library)
  {
    forall b :: b in s.books && s.books[b].available ==> !BookOnLoan(s.records, b)
  }

  ghost predicate Consistent(s: Library)
  {
    && RecordsReferToStored(s)
    && OneOpenLoanPerBook(s)
    && FlagsMatchLedger(s)
    && BookIdsBelowCounter(s)
    && PatronIdsBelowCounter(s)
  }

  /** Two record sequences with the same open counts agree on which books are on loan. */
  lemma SameCountsSameLoans(r1: seq<BorrowingRecord>, r2: seq<BorrowingRecord>, b: BookId)
    requires OpenCount(r1, b) == OpenCount(r2, b)
    ensures BookOnLoan(r1, b) <==> BookOnLoan(r2, b)
  {
    OpenCountZeroIff(r1, b);
    OpenCountZeroIff(r2, b);
  }

  /** Two distinct open records of a book count twice. */
  lemma TwoOpenRecordsCountTwice(recs: seq<BorrowingRecord>, i: nat, j: nat, b: BookId)
    requires i < |recs| && j < |recs| && i != j
    requires recs[i].book == b && !recs[i].returned && recs[j].book == b && !recs[j].returned
    ensures OpenCount(recs, b) >= 2
  {
    var closed := recs[i := recs[i].(returned := true)];
    OpenCountUpdate(recs, i, recs[i].(returned := true), b);
    assert closed[j] == recs[j];
    OpenCountZeroIff(closed, b);
  }

  /** With at most one open record per book there is at most one per pair. */
  lemma OneOpenRecordPerPair(s: Library, b: BookId, p: PatronId)
    requires OneOpenLoanPerBook(s)
    ensures OneOpenRecordOfPair(s.records, b, p)
  {
    forall i, j | 0 <= i < |s.records| && 0 <= j < |s.records| && IsOpenFor(s.records[i], b, p) && IsOpenFor(s.records[j], b, p)
      ensures i == j
    {
      assert i != j ==> OpenCount(s.records, b) >= 2 by {
        if i != j {
          TwoOpenRecordsCountTwice(s.records, i, j, b);
        }
      }
    }
  }

  /** In a consistent library the flag and the deletion guard agree. */
  lemma GuardAgreesWithFlag(s: Library, b: BookId)
    requires Consistent(s) && b in s.books
    ensures CurrentlyBorrowed(Some(BookRecords(s.records, b))) <==> !s.books[b].available
  {
    BookCurrentlyBorrowedIff(s.records, b);
  }

  // ------------------------------------------------ what each operation does to the records

  /** A successful borrow gives its book one more open record and leaves every other
      book's count alone; the new record refers to stored rows. */
  lemma BorrowOpenCounts(s: Library, b: BookId, p: PatronId, today: Day)
    requires Borrow(s, b, p, today).Done?
    ensures var t := Borrow(s, b, p, today).state;
            && OpenCount(t.records, b) == OpenCount(s.records, b) + 1
            && (forall c :: c != b ==> OpenCount(t.records, c) == OpenCount(s.records, c))
            && (RecordsReferToStored(s) ==> RecordsReferToStored(t))
  {
    var t := Borrow(s, b, p, today).state;
    var x := BorrowingRecord(b, p, today, None, false);
    forall c ensures OpenCount(t.records, c) == OpenCount(s.records, c) + Counts(x, c) {
      OpenCountAppend(s.records, x, c);
    }
    if RecordsReferToStored(s) {
      forall y | y in t.records ensures y.book in t.books && y.patron in t.patrons {
        if y != x {
          assert y in s.records;
        }
      }
    }
  }

  /** A successful return takes one open record from its book and leaves every other
      book's count alone; no record changes what it refers to. */
  lemma ReturnOpenCounts(s: Library, b: BookId, p: PatronId)
    requires Return(s, b, p).Done?
    ensures var t := Return(s, b, p).state;
            && OpenCount(t.records, b) + 1 == OpenCount(s.records, b)
            && (forall c :: c != b ==> OpenCount(t.records, c) == OpenCount(s.records, c))
            && (RecordsReferToStored(s) ==> RecordsReferToStored(t))
  {
    var t := Return(s, b, p).state;
    var i :| 0 <= i < |s.records| && IsOpenFor(s.records[i], b, p)
             && t.records == s.records[i := s.records[i].(returned := true)];
    forall c ensures OpenCount(t.records, c) + Counts(s.records[i], c) == OpenCount(s.records, c) {
      OpenCountUpdate(s.records, i, s.records[i].(returned := true), c);
    }
    if RecordsReferToStored(s) {
      forall y | y in t.records ensures y.book in t.books && y.patron in t.patrons {
        var k :| 0 <= k < |t.records| && t.records[k] == y;
        if k != i {
          assert s.records[k] in s.records;
        } else {
          assert s.records[i] in s.records;
        }
      }
    }
  }

  /** Deleting a book leaves it no record and every other book's count as it was. */
  lemma DeleteBookOpenCounts(s: Library, id: BookId)
    requires DeleteBook(s, id).Done?
    ensures var t := DeleteBook(s, id).state;
            && !BookOnLoan(t.records, id)
            && (forall c :: c != id ==> OpenCount(t.records, c) == OpenCount(s.records, c))
  {
    var t := DeleteBook(s, id).state;
    var keep := (x: BorrowingRecord) => x.book != id;
    assert t.records == Filter(s.records, keep);
    forall c | c != id ensures OpenCount(t.records, c) == OpenCount(s.records, c) {
      OpenCountFilter(s.records, keep, c);
    }
    forall k | 0 <= k < |t.records| ensures t.records[k].book != id {
      assert t.records[k] in t.records;
    }
  }

  /** Deleting a patron, which has no open record, leaves every book's count as it was. */
  lemma DeletePatronOpenCounts(s: Library, id: PatronId)
    requires DeletePatron(s, id).Done?
    ensures forall c :: OpenCount(DeletePatron(s, id).state.records, c) == OpenCount(s.records, c)
  {
    var t := DeletePatron(s, id).state;
    var keep := (x: BorrowingRecord) => x.patron != id;
    assert t.records == Filter(s.records, keep);
    forall x | x in s.records && !x.returned ensures keep(x) {
      var k :| 0 <= k < |s.records| && s.records[k] == x;
    }
    forall c ensures OpenCount(t.records, c) == OpenCount(s.records, c) {
      OpenCountFilter(s.records, keep, c);
    }
  }

  // ------------------------------------------------ consistency under each operation

  /** A successful borrow keeps the library consistent. */
  lemma BorrowKeepsConsistent(s: Library, b: BookId, p: PatronId, today: Day)
    requires Consistent(s) && Borrow(s, b, p, today).Done?
    ensures Consistent(Borrow(s, b, p, today).state)
  {
    var t := Borrow(s, b, p, today).state;
    BorrowOpenCounts(s, b, p, today);
    OpenCountZeroIff(s.records, b);
    OpenCountZeroIff(t.records, b);
    forall c | c in t.books && c != b ensures !t.books[c].available <==> BookOnLoan(t.records, c) {
      SameCountsSameLoans(s.records, t.records, c);
    }
  }

  /** A successful return keeps the library consistent. */
  lemma ReturnKeepsConsistent(s: Library, b: BookId, p: PatronId)
    requires Consistent(s) && Return(s, b, p).Done?
    ensures Consistent(Return(s, b, p).state)
  {
    var t := Return(s, b, p).state;
    ReturnOpenCounts(s, b, p);
    OpenCountZeroIff(t.records, b);
    forall c | c in t.books && c != b ensures !t.books[c].available <==> BookOnLoan(t.records, c) {
      SameCountsSameLoans(s.records, t.records, c);
    }
  }

  /** Creating a book keeps the library consistent exactly when the new book is marked
      available: nothing stops a book from being stored unavailable with no loan. */
  lemma CreateBookConsistentIff(s: Library, book: Book)
    requires Consistent(s) && CreateBook(s, book).Done?
    ensures Consistent(CreateBook(s, book).state) <==> book.available
  {
    var r := CreateBook(s, book);
    var t := r.state;
    forall k | 0 <= k < |s.records| ensures s.records[k].book != r.value {
      assert s.records[k] in s.records;
    }
    assert !BookOnLoan(t.records, r.value);
  }

  /** Updating a book keeps the library consistent. */
  lemma UpdateBookKeepsConsistent(s: Library, id: BookId, info: BookInfo)
    requires Consistent(s) && UpdateBook(s, id, info).Done?
    ensures Consistent(UpdateBook(s, id, info).state)
  {
  }

  /** Deleting a book keeps the library consistent. */
  lemma DeleteBookKeepsConsistent(s: Library, id: BookId)
    requires Consistent(s) && DeleteBook(s, id).Done?
    ensures Consistent(DeleteBook(s, id).state)
  {
    var t := DeleteBook(s, id).state;
    DeleteBookOpenCounts(s, id);
    OpenCountZeroIff(t.records, id);
    forall c | c in t.books ensures !t.books[c].available <==> BookOnLoan(t.records, c) {
      SameCountsSameLoans(s.records, t.records, c);
    }
  }

  /** Creating a patron keeps the library consistent. */
  lemma CreatePatronKeepsConsistent(s: Library, patron: Patron)
    requires Consistent(s) && CreatePatron(s, patron).Done?
    ensures Consistent(CreatePatron(s, patron).state)
  {
  }

  /** Updating a patron keeps the library consistent. */
  lemma UpdatePatronKeepsConsistent(s: Library, id: PatronId, dto: Patron)
    requires Consistent(s) && UpdatePatron(s, id, dto).Done?
    ensures Consistent(UpdatePatron(s, id, dto).state)
  {
  }

  /** Deleting a patron keeps the library consistent. */
  lemma DeletePatronKeepsConsistent(s: Library, id: PatronId)
    requires Consistent(s) && DeletePatron(s, id).Done?
    ensures Consistent(DeletePatron(s, id).state)
  {
    var t := DeletePatron(s, id).state;
    DeletePatronOpenCounts(s, id);
    forall c | c in t.books ensures !t.books[c].available <==> BookOnLoan(t.records, c) {
      SameCountsSameLoans(s.records, t.records, c);
    }
  }

  /** When no available book has an open record, as in every consistent or safe library,
      the defensive duplicate-pair check of borrow never fires. */
  lemma BorrowNeverIllegalState(s: Library, b: BookId, p: PatronId, today: Day)
    requires AvailableMeansFree(s)
    ensures Borrow(s, b, p, today) != Failed(IllegalState)
  {
    OpenLoanPutsBookOnLoan(s.records, b, p);
  }

  /** When every record refers to a stored book, as in every consistent or safe library, a
      successful return always finds its book, so the branch that skips the flag update is
      never taken. */
  lemma ReturnFindsBook(s: Library, b: BookId, p: PatronId)
    requires RecordsReferToStored(s) && Return(s, b, p).Done?
    ensures b in s.books && Return(s, b, p).state.books[b].available
  {
    var k :| 0 <= k < |s.records| && IsOpenFor(s.records[k], b, p);
    assert s.records[k] in s.records;
  }

  /** Returns are not idempotent: when the pair has at most one open record, a second
      return after a successful one fails. */
  lemma ReturnTwiceFails(s: Library, b: BookId, p: PatronId)
    requires OneOpenRecordOfPair(s.records, b, p) && Return(s, b, p).Done?
    ensures Return(Return(s, b, p).state, b, p) == Failed(NotFound(MissingLoan))
  {
    var t := Return(s, b, p).state;
    var i :| 0 <= i < |s.records| && IsOpenFor(s.records[i], b, p)
             && t.records == s.records[i := s.records[i].(returned := true)];
    forall j | 0 <= j < |t.records| ensures !IsOpenFor(t.records[j], b, p) {
      if j != i {
        assert t.records[j] == s.records[j];
      }
    }
  }

  /** The model takes the first of several open records of a pair, where the repository
      query would throw: with two open records of one pair, both returns succeed, one
      after the other. */
  lemma TwoOpenRecordsReturnTwice(book: Book, patron: Patron, today: Day)
    ensures var x := BorrowingRecord(1, 1, today, None, false);
            var s := Library(map[1 := book], map[1 := patron], [x, x], 2, 2);
            && RecordsReferToStored(s)
            && !OneOpenRecordOfPair(s.records, 1, 1)
            && Return(s, 1, 1).Done?
            && Return(Return(s, 1, 1).state, 1, 1).Done?
  {
    var x := BorrowingRecord(1, 1, today, None, false);
    var s := Library(map[1 := book], map[1 := patron], [x, x], 2, 2);
    assert IsOpenFor(s.records[0], 1, 1) && IsOpenFor(s.records[1], 1, 1);
    var t := Return(s, 1, 1).state;
    assert IsOpenFor(t.records[0], 1, 1) || IsOpenFor(t.records[1], 1, 1);
  }

  /** Borrow, return, and borrow again by anyone: the return restores the books exactly and
      leaves one closed record behind, and the next borrow succeeds. Only the book itself
      needs to be free, whatever holds of the other books. */
  lemma BorrowReturnRoundTrip(s: Library, b: BookId, p: PatronId, q: PatronId, d1: Day, d2: Day)
    requires b in s.books && s.books[b].available && !BookOnLoan(s.records, b)
    requires p in s.patrons && q in s.patrons
    ensures Borrow(s, b, p, d1).Done?
    ensures var s1 := Borrow(s, b, p, d1).state;
            && Return(s1, b, p).Done?
            && Return(s1, b, p).state.books == s.books
            && Return(s1, b, p).state.patrons == s.patrons
            && Return(s1, b, p).state.records == s.records + [BorrowingRecord(b, p, d1, None, true)]
            && Borrow(Return(s1, b, p).state, b, q, d2).Done?
  {
    OpenLoanPutsBookOnLoan(s.records, b, p);
    var s1 := Borrow(s, b, p, d1).state;
    var n := |s.records|;
    assert IsOpenFor(s1.records[n], b, p);
    var s2 := Return(s1, b, p).state;
    var i :| 0 <= i < |s1.records| && IsOpenFor(s1.records[i], b, p)
             && s2.records == s1.records[i := s1.records[i].(returned := true)];
    forall j | 0 <= j < n ensures !IsOpenFor(s1.records[j], b, p) {
      assert s1.records[j] == s.records[j];
    }
    assert i == n;
    assert s2.records == s.records + [BorrowingRecord(b, p, d1, None, true)];
    assert s2.books == s.books;
    forall k | 0 <= k < |s2.records| ensures !IsOpenFor(s2.records[k], b, q) {
      if k < n {
        assert s2.records[k] == s.records[k];
      }
    }
  }

  /** While a loan is open neither its book nor its patron can be deleted; once it is
      returned the book can. Only the book needs to have been free before the loan. */
  lemma DeletionGuardAroundLoan(s: Library, b: BookId, p: PatronId, today: Day)
    requires !BookOnLoan(s.records, b) && Borrow(s, b, p, today).Done?
    ensures var s1 := Borrow(s, b, p, today).state;
            && DeleteBook(s1, b) == Failed(IllegalState)
            && DeletePatron(s1, p) == Failed(IllegalState)
            && Return(s1, b, p).Done?
            && DeleteBook(Return(s1, b, p).state, b).Done?
  {
    var s1 := Borrow(s, b, p, today).state;
    var n := |s.records|;
    assert IsOpenFor(s1.records[n], b, p);
    BorrowOpenCounts(s, b, p, today);
    ReturnOpenCounts(s1, b, p);
    OpenCountZeroIff(s.records, b);
    OpenCountZeroIff(Return(s1, b, p).state.records, b);
  }

  /** The borrow-twice scenario: book 1 is lent to patron 1, refused to patron 2, returned,
      and cannot be returned a second time. */
  lemma LoanScenario(today: Day)
    ensures var info := BookInfo("Dune", "Frank Herbert", 1965, "Science fiction", 412);
            var s0 := Library(map[1 := Book(info, "9780441013593", None, true)],
                              map[1 := Patron("Ann", "ann@example.org", "5550001", None),
                                  2 := Patron("Bob", "bob@example.org", "5550002", None)],
                              [], 2, 3);
            && Borrow(s0, 1, 1, today).Done?
            && var s1 := Borrow(s0, 1, 1, today).state;
               && Borrow(s1, 1, 2, today) == Failed(Duplicate)
               && Return(s1, 1, 1).Done?
               && Return(Return(s1, 1, 1).state, 1, 1) == Failed(NotFound(MissingLoan))
  {
    var info := BookInfo("Dune", "Frank Herbert", 1965, "Science fiction", 412);
    var s0 := Library(map[1 := Book(info, "9780441013593", None, true)],
                      map[1 := Patron("Ann", "ann@example.org", "5550001", None),
                          2 := Patron("Bob", "bob@example.org", "5550002", None)],
                      [], 2, 3);
    assert Consistent(s0);
    BorrowKeepsConsistent(s0, 1, 1, today);
    var s1 := Borrow(s0, 1, 1, today).state;
    assert IsOpenFor(s1.records[0], 1, 1);
    OneOpenRecordPerPair(s1, 1, 1);
    ReturnTwiceFails(s1, 1, 1);
  }

  /** A book created unavailable is refused for borrowing although no loan exists, and the
      deletion guard lets it go: flag and records disagree from the start. */
  lemma UnavailableNewBook(s: Library, book: Book, p: PatronId, today: Day)
    requires Consistent(s) && CreateBook(s, book).Done? && !book.available && p in s.patrons
    ensures var r := CreateBook(s, book);
            && !Consistent(r.state)
            && Borrow(r.state, r.value, p, today) == Failed(Duplicate)
            && DeleteBook(r.state, r.value).Done?
  {
    CreateBookConsistentIff(s, book);
    var r := CreateBook(s, book);
    forall k | 0 <= k < |s.records| ensures s.records[k].book != r.value {
      assert s.records[k] in s.records;
    }
  }
}

=== FILE: patrons.dfy ===
/** Patron management: lookup, creation with a unique email, update, and deletion guarded
    by the patron's open loans. */
module PatronService {
  import opened Results
  import opened Entities

  /** Some stored patron already has email `email`. */
  predicate EmailTaken(s: Library, email: string)
  {
    exists id :: id in s.patrons && s.patrons[id].email == email
  }

  /** Every stored patron id is below the identity counter. */
  predicate PatronIdsBelowCounter(s: Library)
  {
    forall id :: id in s.patrons ==> id < s.nextPatronId
  }

  /** No two stored patrons share an email. */
  predicate EmailsUnique(s: Library)
  {
    forall i, j :: i in s.patrons && j in s.patrons && s.patrons[i].email == s.patrons[j].email ==> i == j
  }

  /** Look up a patron; the DTO carries every field of the patron. */
  function GetPatron(s: Library, id: PatronId): (r: Result<Patron>)
    ensures r.Ok? <==> id in s.patrons
    ensures r.Ok? ==> r.value == s.patrons[id]
    ensures r.Err? ==> r.error == NotFound(MissingPatron)
  {
    if id in s.patrons then Ok(s.patrons[id]) else Err(NotFound(MissingPatron))
  }

  /** Store a new patron under the next identity, unless its email is already taken. The
      value is the new id. */
  function CreatePatron(s: Library, patron: Patron): (r: Response<Library, PatronId>)
    ensures r.Failed? <==> EmailTaken(s, patron.email)
    ensures r.Failed? ==> r.error == Duplicate
    ensures r.Done? ==> r.state.patrons == s.patrons[r.value := patron]
    ensures r.Done? && PatronIdsBelowCounter(s) ==> r.value !in s.patrons && PatronIdsBelowCounter(r.state)
    ensures r.Done? ==> r.state.books == s.books && r.state.records == s.records
    ensures r.Done? ==> r.state.nextBookId == s.nextBookId
  {
    if EmailTaken(s, patron.email) then Failed(Duplicate)
    else
      var id := s.nextPatronId;
      Done(s.(patrons := s.patrons[id := patron], nextPatronId := id + 1), id)
  }

  /** Overwrite every field of a stored patron with the payload. The email is not checked
      against the other patrons here. */
  function UpdatePatron(s: Library, id: PatronId, dto: Patron): (r: Response<Library, Patron>)
    ensures r.Failed? <==> id !in s.patrons
    ensures r.Failed? ==> r.error == NotFound(MissingPatron)
    ensures r.Done? ==> r.value == dto && r.state.patrons == s.patrons[id := dto]
    ensures r.Done? ==> r.state.books == s.books && r.state.records == s.records
    ensures r.Done? ==> r.state.nextBookId == s.nextBookId && r.state.nextPatronId == s.nextPatronId
  {
    if id !in s.patrons then Failed(NotFound(MissingPatron))
    else Done(s.(patrons := s.patrons[id := dto]), dto)
  }

  /** Delete a stored patron unless one of its records is open. The deletion cascades to
      every record of the patron. */
  function DeletePatron(s: Library, id: PatronId): (r: Response<Library, ()>)
    ensures r.Failed? <==> id !in s.patrons || PatronOnLoan(s.records, id)
    ensures id !in s.patrons ==> r == Failed(NotFound(MissingPatron))
    ensures id in s.patrons && PatronOnLoan(s.records, id) ==> r == Failed(IllegalState)
    ensures r.Done? ==> r.state.patrons == s.patrons - {id}
    ensures r.Done? ==> forall x :: x in r.state.records <==> x in s.records && x.patron != id
    ensures r.Done? ==> forall x {:trigger multiset(r.state.records)[x]} :: multiset(r.state.records)[x] == if x.patron == id then 0 else multiset(s.records)[x]
    ensures r.Done? ==> r.state.books == s.books
    ensures r.Done? ==> r.state.nextBookId == s.nextBookId && r.state.nextPatronId == s.nextPatronId
  {
    if id !in s.patrons then Failed(NotFound(MissingPatron))
    else if
      PatronCurrentlyBorrowedIff(s.records, id);
      CurrentlyBorrowed(Some(PatronRecords(s.records, id)))
    then Failed(IllegalState)
    else
      Done(s.(patrons := s.patrons - {id}, records := Filter(s.records, (x: BorrowingRecord) => x.patron != id)), ())
  }

  /** A created patron can be read back, and so can an updated one. */
  lemma CreateUpdateThenGet(s: Library, patron: Patron, id: PatronId, dto: Patron)
    ensures CreatePatron(s, patron).Done? ==>
              GetPatron(CreatePatron(s, patron).state, CreatePatron(s, patron).value) == Ok(patron)
    ensures UpdatePatron(s, id, dto).Done? ==> GetPatron(UpdatePatron(s, id, dto).state, id) == Ok(dto)
  {
  }

  /** Creation keeps emails unique. */
  lemma CreatePatronKeepsEmailsUnique(s: Library, patron: Patron)
    requires EmailsUnique(s) && PatronIdsBelowCounter(s)
    ensures CreatePatron(s, patron).Done? ==> EmailsUnique(CreatePatron(s, patron).state)
  {
    if CreatePatron(s, patron).Done? {
      assert forall j :: j in s.patrons ==> s.patrons[j].email != patron.email;
    }
  }

  /** Update does not: with two patrons, giving the second the first one's email is
      accepted by the service. */
  lemma UpdatePatronMayDuplicateEmail()
    ensures var a := Patron("Ann", "a@x", "5550001", None);
            var b := Patron("Bob", "b@x", "5550002", None);
            var s := Library(map[], map[1 := a, 2 := b], [], 1, 3);
            && EmailsUnique(s)
            && UpdatePatron(s, 2, b.(email := "a@x")).Done?
            && !EmailsUnique(UpdatePatron(s, 2, b.(email := "a@x")).state)
  {
    var a := Patron("Ann", "a@x", "5550001", None);
    var b := Patron("Bob", "b@x", "5550002", None);
    var s := Library(map[], map[1 := a, 2 := b], [], 1, 3);
    assert a.email != b.email;
    var t := UpdatePatron(s, 2, b.(email := "a@x")).state;
    assert t.patrons[1].email == t.patrons[2].email;
  }
}

=== FILE: regex.dfy ===
/** A small fragment of regular expressions with their language, used as the reference
    reading of the `@Pattern` constraints. Java's `Matcher.matches()` accepts a string
    exactly when the whole string is in the language of the pattern. */
module Regex {

  /** The characters from `lo` to `hi` inclusive; a single character is a range of one. */
  datatype CharRange = CharRange(lo: char, hi: char)

  /** A bracketed character class is the union of its ranges. */
  predicate InClass(c: char, ranges: seq<CharRange>)
  {
    exists i :: 0 <= i < |ranges| && ranges[i].lo <= c <= ranges[i].hi
  }

  datatype Re =
    | Char(c: char)
    | Class(ranges: seq<CharRange>)
    | Cat(a: Re, b: Re)
    | Alt(a: Re, b: Re)
    | Opt(a: Re)
    | Rep(a: Re, lo: nat, hi: nat)

  /** `s` is in the language of `r`. */
  ghost predicate Matches(r: Re, s: string)
    decreases r, 0
  {
    match r
    case Char(c) => s == [c]
    case Class(ranges) => |s| == 1 && InClass(s[0], ranges)
    case Cat(a, b) => exists k :: 0 <= k <= |s| && Matches(a, s[..k]) && Matches(b, s[k..])
    case Alt(a, b) => Matches(a, s) || Matches(b, s)
    case Opt(a) => s == [] || Matches(a, s)
    case Rep(a, lo, hi) => exists n :: lo <= n <= hi && MatchesN(a, n, s)
  }

  /** `s` is the concatenation of exactly `n` strings each matching `a`. */
  ghost predicate MatchesN(a: Re, n: nat, s: string)
    decreases a, n + 1
  {
    if n == 0 then s == []
    else exists k :: 0 <= k <= |s| && Matches(a, s[..k]) && MatchesN(a, n - 1, s[k..])
  }

  /** Every character of `s` lies in the class `cs`. */
  predicate AllIn(s: string, cs: seq<CharRange>)
  {
    forall i :: 0 <= i < |s| ==> InClass(s[i], cs)
  }

  /** `n` repetitions of a character class are exactly the strings of length `n` over it. */
  lemma {:induction false} ClassRun(cs: seq<CharRange>, n: nat, s: string)
    ensures MatchesN(Class(cs), n, s) <==> |s| == n && AllIn(s, cs)
    decreases n
  {
    if n > 0 {
      if MatchesN(Class(cs), n, s) {
        var k :| 0 <= k <= |s| && Matches(Class(cs), s[..k]) && MatchesN(Class(cs), n - 1, s[k..]);
        assert k == 1;
        ClassRun(cs, n - 1, s[1..]);
        assert forall i :: 1 <= i < |s| ==> s[i] == s[1..][i - 1];
      }
      if |s| == n && AllIn(s, cs) {
        assert AllIn(s[1..], cs) by {
          forall i | 0 <= i < |s[1..]| ensures InClass(s[1..][i], cs) {
            assert s[1..][i] == s[i + 1];
          }
        }
        ClassRun(cs, n - 1, s[1..]);
        assert s[..1] == [s[0]];
        assert Matches(Class(cs), s[..1]);
        assert 0 <= 1 <= |s| && Matches(Class(cs), s[..1]) && MatchesN(Class(cs), n - 1, s[1..]);
      }
    }
  }

  /** A string accepted by a bounded repetition of a character class lies over the class
      and has a length within the bounds. */
  lemma RepClassSound(cs: seq<CharRange>, lo: nat, hi: nat, s: string)
    requires Matches(Rep(Class(cs), lo, hi), s)
    ensures lo <= |s| <= hi && AllIn(s, cs)
  {
    var n :| lo <= n <= hi && MatchesN(Class(cs), n, s);
    ClassRun(cs, n, s);
  }

  /** A bounded repetition of a character class accepts exactly the strings over the
      class whose length lies within the bounds. */
  lemma RepClass(cs: seq<CharRange>, lo: nat, hi: nat, s: string)
    ensures Matches(Rep(Class(cs), lo, hi), s) <==> lo <= |s| <= hi && AllIn(s, cs)
  {
    if Matches(Rep(Class(cs), lo, hi), s) {
      RepClassSound(cs, lo, hi, s);
    }
    if lo <= |s| <= hi && AllIn(s, cs) {
      ClassRun(cs, |s|, s);
    }
  }

  /** When every match of `a` has width `w`, a concatenation splits at `w`. */
  lemma CatFixed(a: Re, b: Re, w: nat, s: string)
    requires forall t :: Matches(a, t) ==> |t| == w
    ensures Matches(Cat(a, b), s) <==> w <= |s| && Matches(a, s[..w]) && Matches(b, s[w..])
  {
  }
}

=== FILE: results.dfy ===
/** Outcome types shared by the services: the source's exceptions become error kinds. */
module Results {

  datatype Option<+T> = None | Some(value: T)

  /** What a NotFound error refers to. */
  datatype Missing = MissingBook | MissingPatron | MissingLoan

  /** ResourceNotFoundException, DuplicateEntryException and IllegalStateException. */
  datatype Error = NotFound(what: Missing) | Duplicate | IllegalState

  /** Outcome of a read-only query. */
  datatype Result<+T> = Ok(value: T) | Err(error: Error)

  /** Outcome of a state-changing operation. Every failure in the services is raised
      before anything is saved, so a failure carries no state: the caller keeps the
      state it had. */
  datatype Response<+S, +T> = Done(state: S, value: T) | Failed(error: Error)
}

=== FILE: safety.dfy ===
/** The part of the ledger's consistency that every operation keeps, whatever flags the
    books are created with: at most one open loan per book. Unlike `Ledger.Consistent`
    it holds in every library reachable from an empty one. */
module Safety {
  import opened Results
  import opened Entities
  import opened BorrowingService
  import opened BookService
  import opened PatronService
  import opened Ledger

  ghost predicate Safe(s: Library)
  {
    && RecordsReferToStored(s)
    && OneOpenLoanPerBook(s)
    && AvailableMeansFree(s)
    && BookIdsBelowCounter(s)
    && PatronIdsBelowCounter(s)
  }

  /** Consistency is the stronger condition. */
  lemma ConsistentIsSafe(s: Library)
    requires Consistent(s)
    ensures Safe(s)
  {
  }

  /** Creating a book keeps the library safe, whatever its flag. */
  lemma CreateBookKeepsSafe(s: Library, book: Book)
    requires Safe(s) && CreateBook(s, book).Done?
    ensures Safe(CreateBook(s, book).state)
  {
    var r := CreateBook(s, book);
    forall k | 0 <= k < |s.records| ensures s.records[k].book != r.value {
      assert s.records[k] in s.records;
    }
    assert !BookOnLoan(r.state.records, r.value);
  }

  /** Updating a book keeps the library safe. */
  lemma UpdateBookKeepsSafe(s: Library, id: BookId, info: BookInfo)
    requires Safe(s) && UpdateBook(s, id, info).Done?
    ensures Safe(UpdateBook(s, id, info).state)
  {
  }

  /** Deleting a book, with its records, keeps the library safe. */
  lemma DeleteBookKeepsSafe(s: Library, id: BookId)
    requires Safe(s) && DeleteBook(s, id).Done?
    ensures Safe(DeleteBook(s, id).state)
  {
    var t := DeleteBook(s, id).state;
    DeleteBookOpenCounts(s, id);
    OpenCountZeroIff(t.records, id);
    forall c | c in t.books && t.books[c].available ensures !BookOnLoan(t.records, c) {
      SameCountsSameLoans(s.records, t.records, c);
    }
  }

  /** Creating a patron keeps the library safe. */
  lemma CreatePatronKeepsSafe(s: Library, patron: Patron)
    requires Safe(s) && CreatePatron(s, patron).Done?
    ensures Safe(CreatePatron(s, patron).state)
  {
  }

  /** Updating a patron keeps the library safe. */
  lemma UpdatePatronKeepsSafe(s: Library, id: PatronId, dto: Patron)
    requires Safe(s) && UpdatePatron(s, id, dto).Done?
    ensures Safe(UpdatePatron(s, id, dto).state)
  {
  }

  /** Deleting a patron, with its records, keeps the library safe. */
  lemma DeletePatronKeepsSafe(s: Library, id: PatronId)
    requires Safe(s) && DeletePatron(s, id).Done?
    ensures Safe(DeletePatron(s, id).state)
  {
    var t := DeletePatron(s, id).state;
    DeletePatronOpenCounts(s, id);
    forall c | c in t.books && t.books[c].available ensures !BookOnLoan(t.records, c) {
      SameCountsSameLoans(s.records, t.records, c);
    }
  }

  /** A successful borrow keeps the library safe: the book was available, so it had no
      open record before. */
  lemma BorrowKeepsSafe(s: Library, b: BookId, p: PatronId, today: Day)
    requires Safe(s) && Borrow(s, b, p, today).Done?
    ensures Safe(Borrow(s, b, p, today).state)
  {
    var t := Borrow(s, b, p, today).state;
    BorrowOpenCounts(s, b, p, today);
    OpenCountZeroIff(s.records, b);
    forall c | c in t.books && t.books[c].available ensures !BookOnLoan(t.records, c) {
      SameCountsSameLoans(s.records, t.records, c);
    }
  }

  /** A successful return keeps the library safe: it closes the one open record of its
      book, so the book it marks available has none left. */
  lemma ReturnKeepsSafe(s: Library, b: BookId, p: PatronId)
    requires Safe(s) && Return(s, b, p).Done?
    ensures Safe(Return(s, b, p).state)
  {
    var t := Return(s, b, p).state;
    ReturnOpenCounts(s, b, p);
    OpenCountZeroIff(t.records, b);
    forall c | c in t.books && t.books[c].available && c != b ensures !BookOnLoan(t.records, c) {
      SameCountsSameLoans(s.records, t.records, c);
    }
  }

  /** The state-changing requests of the three services. */
  datatype Request =
    | AddBook(book: Book)
    | EditBook(bookId: BookId, info: BookInfo)
    | RemoveBook(bookId: BookId)
    | AddPatron(patron: Patron)
    | EditPatron(patronId: PatronId, dto: Patron)
    | RemovePatron(patronId: PatronId)
    | Lend(lendBook: BookId, lendPatron: PatronId, today: Day)
    | TakeBack(backBook: BookId, backPatron: PatronId)

  /** The library after one request: a failed request saves nothing. */
  function Step(s: Library, q: Request): Library
  {
    match q
    case AddBook(book) => var r := CreateBook(s, book); if r.Done? then r.state else s
    case EditBook(id, info) => var r := UpdateBook(s, id, info); if r.Done? then r.state else s
    case RemoveBook(id) => var r := DeleteBook(s, id); if r.Done? then r.state else s
    case AddPatron(patron) => var r := CreatePatron(s, patron); if r.Done? then r.state else s
    case EditPatron(id, dto) => var r := UpdatePatron(s, id, dto); if r.Done? then r.state else s
    case RemovePatron(id) => var r := DeletePatron(s, id); if r.Done? then r.state else s
    case Lend(b, p, today) => var r := Borrow(s, b, p, today); if r.Done? then r.state else s
    case TakeBack(b, p) => var r := Return(s, b, p); if r.Done? then r.state else s
  }

  /** The library after a sequence of requests, in order. */
  function Run(s: Library, qs: seq<Request>): Library
    decreases |qs|
  {
    if qs == [] then s else Run(Step(s, qs[0]), qs[1..])
  }

  /** Every request, successful or not, keeps the library safe. */
  lemma StepKeepsSafe(s: Library, q: Request)
    requires Safe(s)
    ensures Safe(Step(s, q))
  {
    match q
    case AddBook(book) => if CreateBook(s, book).Done? { CreateBookKeepsSafe(s, book); }
    case EditBook(id, info) => if UpdateBook(s, id, info).Done? { UpdateBookKeepsSafe(s, id, info); }
    case RemoveBook(id) => if DeleteBook(s, id).Done? { DeleteBookKeepsSafe(s, id); }
    case AddPatron(patron) => if CreatePatron(s, patron).Done? { CreatePatronKeepsSafe(s, patron); }
    case EditPatron(id, dto) => if UpdatePatron(s, id, dto).Done? { UpdatePatronKeepsSafe(s, id, dto); }
    case RemovePatron(id) => if DeletePatron(s, id).Done? { DeletePatronKeepsSafe(s, id); }
    case Lend(b, p, today) => if Borrow(s, b, p, today).Done? { BorrowKeepsSafe(s, b, p, today); }
    case TakeBack(b, p) => if Return(s, b, p).Done? { ReturnKeepsSafe(s, b, p); }
  }

  /** Any sequence of requests keeps the library safe. */
  lemma {:induction false} RunKeepsSafe(s: Library, qs: seq<Request>)
    requires Safe(s)
    ensures Safe(Run(s, qs))
    decreases |qs|
  {
    if qs != [] {
      StepKeepsSafe(s, qs[0]);
      RunKeepsSafe(Step(s, qs[0]), qs[1..]);
    }
  }

  /** An empty library whose identity counters start at `first`. */
  function Empty(first: int): Library
  {
    Library(map[], map[], [], first, first)
  }

  /** From an empty library, whatever requests arrive, every book has at most one open
      loan, every pair at most one open record, and every record refers to a stored book
      and patron. */
  lemma ReachableHasOneLoanPerBook(first: int, qs: seq<Request>)
    ensures OneOpenLoanPerBook(Run(Empty(first), qs))
    ensures RecordsReferToStored(Run(Empty(first), qs))
    ensures forall b, p :: OneOpenRecordOfPair(Run(Empty(first), qs).records, b, p)
  {
    RunKeepsSafe(Empty(first), qs);
    forall b, p ensures OneOpenRecordOfPair(Run(Empty(first), qs).records, b, p) {
      OneOpenRecordPerPair(Run(Empty(first), qs), b, p);
    }
  }

  /** Safety does not give consistency back: one request creating an unavailable book
      leaves a safe library that is not consistent. */
  lemma SafeButNotConsistent(first: int, book: Book)
    requires !book.available
    ensures Safe(Run(Empty(first), [AddBook(book)]))
    ensures !Consistent(Run(Empty(first), [AddBook(book)]))
  {
    RunKeepsSafe(Empty(first), [AddBook(book)]);
    var t := Run(Empty(first), [AddBook(book)]);
    var qs := [AddBook(book)];
    assert qs[0] == AddBook(book) && qs[1..] == [];
    assert t == Run(Step(Empty(first), AddBook(book)), []);
    assert first in t.books && !BookOnLoan(t.records, first);
  }
}

=== FILE: validation.dfy ===
/** Field constraints of the entities (Bean Validation annotations), as predicates on
    strings and integers. */
module Validation {
  import opened Regex

  /** Java `String.length()`: a character above U+FFFF occupies two UTF-16 code units. */
  function Utf16Length(s: string): (n: nat)
    ensures |s| <= n <= 2 * |s|
    ensures (forall i :: 0 <= i < |s| ==> s[i] as int <= 0xFFFF) ==> n == |s|
  {
    if s == [] then 0
    else (if s[0] as int > 0xFFFF then 2 else 1) + Utf16Length(s[1..])
  }

  /** `@Size(max = m)` on a non-null string. */
  predicate SizeAtMost(s: string, m: nat)
  {
    Utf16Length(s) <= m
  }

  /** `@Size(min = lo, max = hi)` on a non-null string. */
  predicate SizeWithin(s: string, lo: nat, hi: nat)
  {
    lo <= Utf16Length(s) <= hi
  }

  /** `String.trim()` at the front: drops characters at or below U+0020. */
  function TrimStart(s: string): (t: string)
    ensures |t| <= |s| && t == s[|s| - |t|..]
    ensures t != [] ==> t[0] > ' '
    ensures forall i :: 0 <= i < |s| - |t| ==> s[i] <= ' '
  {
    if s != [] && s[0] <= ' ' then TrimStart(s[1..]) else s
  }

  /** `String.trim()` at the back. */
  function TrimEnd(s: string): (t: string)
    ensures |t| <= |s| && t == s[..|t|]
    ensures t != [] ==> t[|t| - 1] > ' '
    ensures forall i :: |t| <= i < |s| ==> s[i] <= ' '
  {
    if s != [] && s[|s| - 1] <= ' ' then TrimEnd(s[..|s| - 1]) else s
  }

  function Trim(s: string): string
  {
    TrimEnd(TrimStart(s))
  }

  /** `@NotBlank` on a non-null string: something is left after trimming. */
  predicate NotBlank(s: string)
  {
    |Trim(s)| > 0
  }

  /** A string is non-blank exactly when one of its characters is above U+0020. */
  lemma NotBlankIff(s: string)
    ensures NotBlank(s) <==> exists i :: 0 <= i < |s| && s[i] > ' '
  {
    var t := TrimStart(s);
    if NotBlank(s) {
      assert s[|s| - |t|] == t[0];
    }
    if exists i :: 0 <= i < |s| && s[i] > ' ' {
      assert t != [];
      assert TrimEnd(t) != [];
    }
  }

  predicate IsDigit(c: char)
  {
    '0' <= c <= '9'
  }

  /** `\d` (without the Unicode flag Java reads it as `[0-9]`). */
  const DigitClass: Re := Class([CharRange('0', '9')])

  /** Nine digits followed by a digit or `X`. */
  predicate IsbnBody(t: string)
  {
    && |t| == 10
    && (forall i :: 0 <= i < 9 ==> IsDigit(t[i]))
    && (IsDigit(t[9]) || t[9] == 'X')
  }

  /** The shape `^(97(8|9))?\d{9}(\d|X)$` required of an ISBN. Only the shape is checked:
      the check digit is not. */
  predicate IsbnShape(s: string)
    ensures IsbnShape(s) ==> |s| == 10 || |s| == 13
    ensures IsbnShape(s) ==> forall i :: 0 <= i < |s| && !IsDigit(s[i]) ==> i == |s| - 1 && s[i] == 'X'
  {
    || IsbnBody(s)
    || (|s| == 13 && s[0] == '9' && s[1] == '7' && (s[2] == '8' || s[2] == '9') && IsbnBody(s[3..]))
  }

  const IsbnPrefix: Re := Cat(Char('9'), Cat(Char('7'), Alt(Char('8'), Char('9'))))
  const IsbnLast: Re := Alt(DigitClass, Char('X'))
  const IsbnPattern: Re := Cat(Opt(IsbnPrefix), Cat(Rep(DigitClass, 9, 9), IsbnLast))

  lemma DigitRunWidth(n: nat)
    ensures forall t :: Matches(Rep(DigitClass, n, n), t) ==> |t| == n
  {
    forall t | Matches(Rep(DigitClass, n, n), t) {
      RepClassSound([CharRange('0', '9')], n, n, t);
    }
  }

  lemma DigitInClass(c: char)
    ensures IsDigit(c) <==> InClass(c, [CharRange('0', '9')])
  {
    if IsDigit(c) {
      assert [CharRange('0', '9')][0].lo <= c <= [CharRange('0', '9')][0].hi;
    }
  }

  lemma DigitRunIff(t: string)
    ensures Matches(Rep(DigitClass, 9, 9), t) <==> |t| == 9 && forall i :: 0 <= i < 9 ==> IsDigit(t[i])
  {
    RepClass([CharRange('0', '9')], 9, 9, t);
    forall i | 0 <= i < |t| {
      DigitInClass(t[i]);
    }
  }

  lemma IsbnLastIff(t: string)
    ensures Matches(IsbnLast, t) <==> |t| == 1 && (IsDigit(t[0]) || t[0] == 'X')
  {
    if |t| == 1 {
      DigitInClass(t[0]);
    }
  }

  lemma IsbnBodyMatches(t: string)
    ensures IsbnBody(t) <==> Matches(Cat(Rep(DigitClass, 9, 9), IsbnLast), t)
  {
    DigitRunWidth(9);
    CatFixed(Rep(DigitClass, 9, 9), IsbnLast, 9, t);
    if |t| >= 9 {
      DigitRunIff(t[..9]);
      IsbnLastIff(t[9..]);
      assert forall i :: 0 <= i < 9 ==> t[..9][i] == t[i];
    }
  }

  lemma IsbnPrefixTail(v: string)
    ensures Matches(Cat(Char('7'), Alt(Char('8'), Char('9'))), v)
        <==> |v| == 2 && v[0] == '7' && (v[1] == '8' || v[1] == '9')
  {
    assert forall t :: Matches(Char('7'), t) ==> |t| == 1;
    CatFixed(Char('7'), Alt(Char('8'), Char('9')), 1, v);
    if |v| == 2 {
      assert v[..1] == [v[0]] && v[1..] == [v[1]];
    }
  }

  lemma IsbnPrefixMatches(u: string)
    ensures Matches(IsbnPrefix, u) <==> |u| == 3 && u[0] == '9' && u[1] == '7' && (u[2] == '8' || u[2] == '9')
  {
    assert forall t :: Matches(Char('9'), t) ==> |t| == 1;
    CatFixed(Char('9'), Cat(Char('7'), Alt(Char('8'), Char('9'))), 1, u);
    if |u| >= 1 {
      IsbnPrefixTail(u[1..]);
      assert u[..1] == [u[0]];
    }
  }

  lemma IsbnPatternSound(s: string)
    ensures Matches(IsbnPattern, s) ==> IsbnShape(s)
  {
    if !Matches(IsbnPattern, s) { return; }
    var k :| 0 <= k <= |s| && Matches(Opt(IsbnPrefix), s[..k]) && Matches(Cat(Rep(DigitClass, 9, 9), IsbnLast), s[k..]);
    IsbnBodyMatches(s[k..]);
    if k == 0 {
      assert s[0..] == s;
    } else {
      IsbnPrefixMatches(s[..k]);
    }
  }

  lemma IsbnPatternComplete(s: string)
    requires IsbnShape(s)
    ensures Matches(IsbnPattern, s)
  {
    var body := Cat(Rep(DigitClass, 9, 9), IsbnLast);
    if IsbnBody(s) {
      IsbnBodyMatches(s);
      assert s[..0] == [] && s[0..] == s;
      assert Matches(Opt(IsbnPrefix), s[..0]) && Matches(body, s[0..]);
    } else {
      IsbnBodyMatches(s[3..]);
      IsbnPrefixMatches(s[..3]);
      assert Matches(Opt(IsbnPrefix), s[..3]) && Matches(body, s[3..]);
    }
  }

  /** The ISBN shape predicate accepts exactly the language of the `@Pattern` regex. */
  lemma IsbnShapeMatchesPattern(s: string)
    ensures IsbnShape(s) <==> Matches(IsbnPattern, s)
  {
    if Matches(IsbnPattern, s) {
      IsbnPatternSound(s);
    }
    if IsbnShape(s) {
      IsbnPatternComplete(s);
    }
  }

  /** The characters of `[0-9. ()-]`. */
  predicate PhoneChar(c: char)
  {
    IsDigit(c) || c == '.' || c == ' ' || c == '(' || c == ')' || c == '-'
  }

  /** The shape `^\+?[0-9. ()-]{7,15}$` required of a phone number. */
  predicate PhoneShape(s: string)
    ensures PhoneShape(s) ==> 7 <= |s| <= 16
    ensures PhoneShape(s) && |s| == 16 ==> s[0] == '+'
  {
    var body := if |s| > 0 && s[0] == '+' then s[1..] else s;
    7 <= |body| <= 15 && forall i :: 0 <= i < |body| ==> PhoneChar(body[i])
  }

  const PhoneRanges: seq<CharRange> :=
    [CharRange('0', '9'), CharRange('.', '.'), CharRange(' ', ' '),
     CharRange('(', '('), CharRange(')', ')'), CharRange('-', '-')]
  const PhonePattern: Re := Cat(Opt(Char('+')), Rep(Class(PhoneRanges), 7, 15))

  lemma PhoneCharInClass(c: char)
    ensures PhoneChar(c) <==> InClass(c, PhoneRanges)
  {
    if c == '.' { assert PhoneRanges[1].lo <= c <= PhoneRanges[1].hi; }
    if c == ' ' { assert PhoneRanges[2].lo <= c <= PhoneRanges[2].hi; }
    if c == '(' { assert PhoneRanges[3].lo <= c <= PhoneRanges[3].hi; }
    if c == ')' { assert PhoneRanges[4].lo <= c <= PhoneRanges[4].hi; }
    if c == '-' { assert PhoneRanges[5].lo <= c <= PhoneRanges[5].hi; }
    if IsDigit(c) { assert PhoneRanges[0].lo <= c <= PhoneRanges[0].hi; }
  }

  lemma PhoneRunIff(t: string)
    ensures Matches(Rep(Class(PhoneRanges), 7, 15), t)
        <==> 7 <= |t| <= 15 && forall i :: 0 <= i < |t| ==> PhoneChar(t[i])
  {
    RepClass(PhoneRanges, 7, 15, t);
    forall i | 0 <= i < |t| {
      PhoneCharInClass(t[i]);
    }
  }

  lemma PhonePatternSound(s: string)
    requires Matches(PhonePattern, s)
    ensures PhoneShape(s)
  {
    var k :| 0 <= k <= |s| && Matches(Opt(Char('+')), s[..k]) && Matches(Rep(Class(PhoneRanges), 7, 15), s[k..]);
    PhoneRunIff(s[k..]);
    if k == 0 {
      assert s[0..] == s;
      assert !PhoneChar('+');
    } else {
      assert s[..k] == ['+'];
      assert s[0] == '+';
    }
  }

  lemma PhonePatternComplete(s: string)
    requires PhoneShape(s)
    ensures Matches(PhonePattern, s)
  {
    var run := Rep(Class(PhoneRanges), 7, 15);
    if |s| > 0 && s[0] == '+' {
      PhoneRunIff(s[1..]);
      assert s[..1] == ['+'];
      assert Matches(Opt(Char('+')), s[..1]) && Matches(run, s[1..]);
    } else {
      PhoneRunIff(s);
      assert s[..0] == [] && s[0..] == s;
      assert Matches(Opt(Char('+')), s[..0]) && Matches(run, s[0..]);
    }
  }

  /** The phone shape predicate accepts exactly the language of the `@Pattern` regex. */
  lemma PhoneShapeMatchesPattern(s: string)
    ensures PhoneShape(s) <==> Matches(PhonePattern, s)
  {
    if Matches(PhonePattern, s) {
      PhonePatternSound(s);
    }
    if PhoneShape(s) {
      PhonePatternComplete(s);
    }
  }

  /** Seven spaces have the phone shape but are blank: the `@NotBlank` on the phone is
      not implied by its `@Pattern`. */
  lemma BlankPhoneHasShape()
    ensures PhoneShape("       ") && !NotBlank("       ")
  {
    var s := "       ";
    assert s[0] != '+' && PhoneChar(' ');
    assert forall i :: 0 <= i < |s| ==> s[i] == ' ';
    NotBlankIff(s);
  }
}
